=== FILE: README.md ===
# Mini-games: match three, cake stacker, runner

A Dafny model of the game logic of the three mini-games in the React front
end. Each game reports a final score and a win or a loss to its host page.

- **Match three** (`MatchGrid`, `MatchGravity`, `MatchCascade`, `MatchGame`)
  - The board is 6×6 with five fruits.
  - Generation draws boards until one has no triple, giving up after 100 draws.
  - A click selects, deselects, re-selects, or swaps two neighbouring cells.
    A swap spends one of the 20 moves.
  - After a swap the cascade repeats three steps until no triple is left:
    clear every horizontal or vertical run of three equal fruits, let the
    fruits fall, and refill the holes from the top.
  - Each cleared cell is worth 10 points.
  - The session ends when the moves run out. It is won at 500 points.
- **Cake stacker** (`CakeStacker`)
  - A cake swings between 15 % and 85 % of the 600-pixel field at 0.8 per tick.
  - A click drops it by 5 per tick onto the stack.
  - Only the overlap with the top cake is kept: the width minus the pixel
    distance between the two centres.
  - A landing with an overlap below 15 ends the game.
  - Otherwise the cake is stacked and earns twice the overlap, rounded down.
    The game then ends if the stack already held ten cakes.
  - The game is won at 500 points.
- **Runner** (`Runner`)
  - Obstacles spawn at x = 650 when none is on screen.
  - Each tick they move left by the speed and drop out past −60. The tick
    also adds one point.
  - At every positive multiple of 200 points the speed rises by 0.2, capped at 7.
  - An obstacle inside (70, 120) hits the runner when the runner is lower
    than 25. A hit ends the game, won at 1000 points.

`GameResult` holds the win/lose outcome shared by the three games.

Randomness is a parameter:
- the match-three boards and refills draw from a `Supply`, a function from
  (round or attempt, row, column) to a fruit;
- the cake stacker's next position is an argument in [20, 80).

Every timer callback is one event (`Step`) applied to an immutable session
value. The sessions' invariants are proved to hold across all events.

The model uses these values from the game code:
- the base cake and the starting width are 120 pixels;
- a stacked cake sits at the falling cake's position;
- the runner starts at speed 4 and gains 0.2 at each positive multiple of
  200 points.

## Model

| member | source | states |
|---|---|---|
| MatchGrid.HasMatches | src/components/games/MatchThreeGame.tsx:28-54 | the scan answers true exactly when some row or column holds three equal fruits in a row |
| MatchGrid.MarkRows | src/components/games/MatchThreeGame.tsx:92-104 | after the horizontal pass a cell is marked exactly when it lies in a horizontal triple, and the flag says whether any such triple exists |
| MatchGrid.MarkColumns | src/components/games/MatchThreeGame.tsx:106-118 | the vertical pass adds exactly the cells of vertical triples to the marks of the horizontal pass |
| MatchGrid.ClearMarked | src/components/games/MatchThreeGame.tsx:120-130 | given the marks of all triples, the clearing loop empties exactly those cells, and its counter is the number of cells that lie in some triple |
| MatchGrid.FindAndRemoveMatches | src/components/games/MatchThreeGame.tsx:86-135 | it reports a match exactly when the board has a triple; it clears the triple cells and earns 10 points for each cleared cell, so a match is worth at least 30; without a match the board and score are untouched |
| MatchGrid.ClearTriplesSpec | src/components/games/MatchThreeGame.tsx:120-130 | clearing empties every cell of every triple, keeps every other cell, and leaves a board with no triple |
| MatchGrid.ClearWithoutTriples | src/components/games/MatchThreeGame.tsx:120-134 | on a board with no triple the clearing pass changes nothing |
| MatchGrid.TripleCellsBounds | src/components/games/MatchThreeGame.tsx:121-131 | the count of cleared cells is 0 without a triple, at least 3 with one, and never more than the 36 cells of the board |
| MatchGravity.DropColumn | src/components/games/MatchThreeGame.tsx:140-150 | the write-index loop on one column yields the column's holes on top and its fruits below, in their original order |
| MatchGravity.SettleSpec | src/components/games/MatchThreeGame.tsx:140-150 | gravity keeps the column's length and its fruits in order and number, and leaves no hole below a fruit |
| MatchGravity.SettleSettled | src/components/games/MatchThreeGame.tsx:142-150 | a column with no hole below a fruit is left unchanged, so a second gravity pass changes nothing |
| MatchGravity.GravitySpec | src/components/games/MatchThreeGame.tsx:138-153 | gravity acts column by column: each column keeps its fruits in order, ends with no hole below a fruit, and a settled column stays as it was |
| MatchGravity.DropFruits | src/components/games/MatchThreeGame.tsx:138-153 | the column loop settles every column of the board |
| MatchGravity.FillFromTop | src/components/games/MatchThreeGame.tsx:156-165 | after the refill the board is full; each fruit already there is kept, and each hole receives the drawn fruit |
| MatchCascade.RandomGrid | src/components/games/MatchThreeGame.tsx:61-67 | a generated board is 6×6 and every cell holds a fruit |
| MatchCascade.CreateValidGrid | src/components/games/MatchThreeGame.tsx:56-72 | generation makes between 1 and 100 draws and returns the last draw; every earlier draw had a triple; a board with a triple comes back only after the 100th draw |
| MatchCascade.Resolve | src/components/games/MatchThreeGame.tsx:168-184 | a board without a triple is left alone with nothing cleared; otherwise at least one round runs when the limit allows it, each round clears between 3 and 36 cells and leaves a full board, and the cascade either settles on a board without a triple or stops at the round limit |
| MatchCascade.CascadeRound | src/components/games/MatchThreeGame.tsx:171-180 | one turn of the cascade loop continues exactly when the board has a triple, and it then clears, drops and refills, scoring 10 per cleared cell |
| MatchCascade.ProcessMatches | src/components/games/MatchThreeGame.tsx:168-184 | the loop yields the cascade's final board, 10 points per cell cleared over all rounds, and its number of rounds |
| MatchGame.Start | src/components/games/MatchThreeGame.tsx:19-25 | a new session on the generated board, with 0 points, 20 moves, no selection and an unlocked board, satisfies the session invariant |
| MatchGame.SwapSpec | src/components/games/MatchThreeGame.tsx:205-211 | a swap exchanges exactly the two cells, touches no other cell, and swapping again restores the board |
| MatchGame.Click | src/components/games/MatchThreeGame.tsx:186-223 | a click does nothing without moves or during a cascade; a move is spent exactly when a neighbour of the selected cell is clicked, and then the two cells are swapped, the selection is cleared and the board is locked; no click ever adds a move; any other click leaves board, moves and lock alone and only toggles or moves the selection |
| MatchGame.FinishCascade | src/components/games/MatchThreeGame.tsx:168-184 | the cascade after a swap leaves the cascade's final board, adds 10 points per cell cleared over all its rounds, unlocks the board, keeps moves and selection, raises the score by a multiple of 10, at least 30 when the swapped board has a triple, and leaves a board without a triple alone |
| MatchGame.EndRule | src/components/games/MatchThreeGame.tsx:78-83 | the session ends exactly when no move is left, is won exactly at 500 points or more, and an ended session ignores clicks |
| MatchGame.RunAccounting | src/components/games/MatchThreeGame.tsx:214 | over any sequence of clicks and cascades the score never falls and each swap spends exactly one move, so at most 20 swaps happen |
| CakeStacker.Start | src/components/games/CakeStackerGame.tsx:17-29 | the initial session, with the 120-pixel base cake and a cake swinging from the middle, satisfies the session invariant |
| CakeStacker.SwingStep | src/components/games/CakeStackerGame.tsx:41-50 | a swing tick keeps the cake within [15, 85]; it turns round exactly when the moved position reaches or passes a bound, and is then clamped to that bound; otherwise it moves by exactly 0.8 |
| CakeStacker.SwingTick | src/components/games/CakeStackerGame.tsx:36-50 | the swing timer acts only while the game goes on and the cake swings; a tick then takes exactly one swing step, changing only position and direction, keeps the cake swinging within [15, 85], and moves it by at most 0.8 |
| CakeStacker.HandleDrop | src/components/games/CakeStackerGame.tsx:60-64 | a click is ignored after the game ends, while a cake falls, or when no cake swings; otherwise the swinging cake starts to fall |
| CakeStacker.FallStep | src/components/games/CakeStackerGame.tsx:66-78 | a drop tick lands exactly when the next position would reach the target; it then stops at the target exactly, and it never overshoots |
| CakeStacker.DropTick | src/components/games/CakeStackerGame.tsx:66-78 | the drop timer acts only on a falling cake in a running game; the cake moves down by 5, and once it would reach its target on the stack it stops exactly there and is stacked |
| CakeStacker.OverlapSpec | src/components/games/CakeStackerGame.tsx:83-87 | the overlap lies between 0 and the current width; for two cakes of equal width it is the length of the intersection of their pixel intervals |
| CakeStacker.StackCake | src/components/games/CakeStackerGame.tsx:82-106 | an overlap below 15 ends the game with stack, width and score unchanged; otherwise a cake as wide as the overlap is added at the drop position, the width shrinks to it, the score grows by twice the overlap rounded down, and the game ends exactly when the stack already held ten cakes |
| CakeStacker.NextCake | src/components/games/CakeStackerGame.tsx:108-114 | after a good landing the next cake appears at the drawn position in [20, 80), back at height 50 and swinging right; in any other state nothing changes |
| CakeStacker.EndRule | src/components/games/CakeStackerGame.tsx:89-122 | a landing ends the game exactly when the overlap is below 15 or the stack held ten cakes, and the game is won exactly when the score then reached 500 |
| CakeStacker.StepSpec | src/components/games/CakeStackerGame.tsx:94-106 | every event keeps the invariant: at most eleven cakes, widths at least 15 and never growing up the stack, at least 30 points per stacked cake, cake inside the bounds. The stack grows by at most one cake, the score never falls, and an ended game is frozen |
| Runner.Start | src/components/games/RunnerGame.tsx:17-25 | the mount state, with score 0, speed 4, no obstacle, not jumping and the game running, satisfies the session invariant |
| Runner.OnScreenSpec | src/components/games/RunnerGame.tsx:60 | the filter keeps exactly the obstacles right of −60, in their order |
| Runner.Advance | src/components/games/RunnerGame.tsx:57-61 | after a tick the obstacles are exactly the moved ones still right of −60; the list never grows and obstacle ids stay increasing |
| Runner.Spawn | src/components/games/RunnerGame.tsx:43-45 | a spawn adds one obstacle at 650 with a fresh id exactly when the game runs and no obstacle is on screen |
| Runner.Tick | src/components/games/RunnerGame.tsx:56-67 | a tick of a running game adds one point and advances the obstacles, and changes nothing else but the speed; at a positive multiple of 200 points the speed becomes the smaller of itself plus 0.2 and 7, and otherwise it stays; it never falls or passes 7 |
| Runner.AnyHit | src/components/games/RunnerGame.tsx:97-103 | the collision scan reports a hit exactly when some obstacle is inside (70, 120) while the runner is below 25 |
| Runner.Collide | src/components/games/RunnerGame.tsx:94-104 | an ended game is not checked again; otherwise the game ends exactly when some obstacle hits |
| Runner.Jump | src/components/games/RunnerGame.tsx:106-113 | a jump starts exactly when the runner is not jumping and the game runs, and nothing else changes |
| Runner.Land | src/components/games/RunnerGame.tsx:83-85 | the end of the jump arc puts the runner back on the ground and changes nothing else |
| Runner.EndRule | src/components/games/RunnerGame.tsx:97-101 | a hit ends a running game with a win exactly at 1000 points or more; without a hit the game goes on; an ended game keeps its result |
| Runner.StepSpec | src/components/games/RunnerGame.tsx:41-48 | every event keeps the invariant: speed within [4, 7], at most one obstacle, fresh ids. The spawn period stays within [1650, 1800] ms, score and speed never fall, and an ended game stays ended |
| Runner.TicksFromStart | src/components/games/RunnerGame.tsx:62-66 | after n ticks from the start the score is n and the speed is 4 plus 0.2 for each multiple of 200 below n, capped at 7 |

## Left out

- Rendering, the leg animation, the back button and the host page (`src/pages/Index.tsx`) are not modelled. They hold no game logic.
- Timers are not modelled as time. Each interval or timeout callback is one event, and any interleaving of legal events is allowed. The 20/16/30 ms periods and the 500 ms pause before the next cake are left out.
- The three 200 ms pauses inside a cascade are left out. The whole cascade is one event, `CascadeDone`. While it runs, clicks are rejected through the `processing` flag.
- `Math.random` is not modelled. It is replaced by the `Supply` function and by the next cake's position as a parameter.
- Floating point is not modelled. Positions, widths and speeds are exact reals, so sums such as 4 + 0.2·k carry no binary rounding error.
- The runner's jump arc (a sine over π in steps of 0.2, peak 120) is not modelled. The runner's height is an input to `Collide`, and `Land` ends the jump.
- The keyboard listener is not modelled. It captures the first render's `handleJump`, so the Space key may see stale `isJumping`/`gameOver` values. The model has only the button path, `Jump`.
- React's render timing is not modelled. For example, the match-three end report runs when the moves reach 0, possibly before the last cascade's later rounds add their points; the model adds the points when the cascade finishes. Likewise the drop timer reads the stack length captured at click time, which equals the current stack because the stack cannot change while a cake falls.
- MatchCascade.Resolve: the game's cascade loop has no bound; the model runs up to round `limit` (the cascade after a swap gets `fuel` rounds), and when the limit is reached before the board settles only that it was reached is promised, not the absence of a triple.
- MatchCascade.ProcessMatches: the loop stops after `fuel` rounds, the same bound as `Resolve`.
- MatchGame.FinishCascade: a board without a triple is promised only when the cascade settled within its fuel.
- Runner.Tick: the speed is promised to stay in [4, 7] only from a speed at most 7, which every reachable session satisfies.

=== FILE: cake_stacker.dfy ===
/**
 * The cake stacker: a cake swings left and right above a stack, a click
 * drops it, and on landing only the part overlapping the top cake stays.
 * Positions are percentages of the 600-pixel play field, widths are pixels;
 * all quantities are exact reals.
 */
module CakeStacker {
  import opened GameResult

  datatype Cake = Cake(position: real, width: real)

  /** The swing direction; `Right` is the game's direction +1. */
  datatype Direction = Right | Left

  /**
   * The phase of the current cake: swinging (with its direction), falling
   * (the drop timer runs), or settled (landed; the next cake, if any, is
   * pending).
   */
  datatype Phase = Swinging(direction: Direction) | Falling | Settling

  datatype Stacker = Stacker(
    score: int,
    over: bool,
    x: real,
    y: real,
    phase: Phase,
    stack: seq<Cake>,
    width: real)

  const SwingSpeed: real := 0.8
  const LeftBound: real := 15.0
  const RightBound: real := 85.0
  const StartY: real := 50.0
  const DropSpeed: real := 5.0
  const FloorY: real := 500.0
  const CakeHeight: real := 40.0
  const CakeLift: real := 35.0
  const FieldWidth: real := 600.0
  const BaseCake: Cake := Cake(50.0, 120.0)
  const MinOverlap: real := 15.0
  const MaxLevel: nat := 10
  const WinScore: int := 500

  function Sign(d: Direction): real
  {
    if d == Right then 1.0 else -1.0
  }

  function Flip(d: Direction): Direction
  {
    if d == Right then Left else Right
  }

  function Max(a: real, b: real): real { if a >= b then a else b }
  function Abs(a: real): real { if a >= 0.0 then a else -a }

  /** The session as the component mounts it: the base cake, a cake swinging right from the middle. */
  function Start(): (s: Stacker)
    ensures Valid(s)
  {
    Stacker(0, false, 50.0, StartY, Swinging(Right), [BaseCake], BaseCake.width)
  }

  // ---------------------------------------------------------------------------
  // Swing

  /**
   * One tick of the swing timer: move by 0.8 in the current direction; on
   * reaching or passing a bound, turn round and clamp to the bound. The cake
   * always ends inside the bounds, and it turns exactly when the unclamped
   * position reached or passed a bound.
   */
  function SwingStep(x: real, d: Direction): (r: (real, Direction))
    ensures LeftBound <= r.0 <= RightBound
    ensures var moved := x + SwingSpeed * Sign(d);
      && (r.1 == Flip(d) <==> moved >= RightBound || moved <= LeftBound)
      && (r.1 == d <==> LeftBound < moved < RightBound)
      && (LeftBound < moved < RightBound ==> r.0 == moved)
      && (moved >= RightBound ==> r.0 == RightBound)
      && (moved <= LeftBound ==> r.0 == LeftBound)
  {
    var moved := x + SwingSpeed * Sign(d);
    if moved >= RightBound || moved <= LeftBound then
      (Max(LeftBound, Min(RightBound, moved)), Flip(d))
    else (moved, d)
  }

  /**
   * The swing timer runs only while the game goes on and the cake swings; a
   * tick then takes one swing step and changes only the position and
   * direction, keeping the cake swinging inside the bounds and moving it by
   * at most 0.8.
   */
  function SwingTick(s: Stacker): (t: Stacker)
    ensures s.over || !s.phase.Swinging? ==> t == s
    ensures !s.over && s.phase.Swinging? ==>
      && t == s.(x := t.x, phase := t.phase)
      && t.phase.Swinging?
      && (t.x, t.phase.direction) == SwingStep(s.x, s.phase.direction)
      && LeftBound <= t.x <= RightBound
      && (LeftBound <= s.x <= RightBound ==> Abs(t.x - s.x) <= SwingSpeed)
  {
    if !s.over && s.phase.Swinging? then
      var (x, d) := SwingStep(s.x, s.phase.direction);
      s.(x := x, phase := Swinging(d))
    else s
  }

  // ---------------------------------------------------------------------------
  // Drop

  /** The game's `isDropping` flag: set from the click until the next cake appears. */
  predicate Dropping(s: Stacker)
  {
    s.phase.Falling? || s.phase.Settling?
  }

  /** The game's `handleDrop`: ignored after the game, while dropping, or with no cake swinging. */
  function HandleDrop(s: Stacker): (t: Stacker)
    ensures s.over || Dropping(s) || !s.phase.Swinging? ==> t == s
    ensures !s.over && s.phase.Swinging? ==> t == s.(phase := Falling)
  {
    if s.over || Dropping(s) || !s.phase.Swinging? then s
    else s.(phase := Falling)
  }

  /** Where a cake lands on a stack of n cakes. */
  function TargetY(n: nat): real
  {
    FloorY - n as real * CakeHeight - CakeLift
  }

  /**
   * One tick of the drop timer: move down by 5; on reaching or passing the
   * target, stop exactly at the target and report the landing.
   */
  function FallStep(y: real, target: real): (r: (real, bool))
    ensures r.1 <==> y + DropSpeed >= target
    ensures r.1 ==> r.0 == target
    ensures !r.1 ==> r.0 == y + DropSpeed && r.0 < target
    ensures y <= target ==> y <= r.0 <= target
  {
    var moved := y + DropSpeed;
    if moved >= target then (target, true) else (moved, false)
  }

  /**
   * The drop timer runs only while the game goes on and the cake falls: the
   * cake moves down by 5, and on reaching its target on the stack it stops
   * exactly there and is stacked.
   */
  function DropTick(s: Stacker): (t: Stacker)
    requires |s.stack| > 0
    ensures s.over || !s.phase.Falling? ==> t == s
    ensures !s.over && s.phase.Falling? && s.y + DropSpeed < TargetY(|s.stack|) ==>
      t == s.(y := s.y + DropSpeed)
    ensures !s.over && s.phase.Falling? && s.y + DropSpeed >= TargetY(|s.stack|) ==>
      t == StackCake(s.(y := TargetY(|s.stack|))) && t.phase.Settling? && t.y == TargetY(|s.stack|)
  {
    if s.over || !s.phase.Falling? then s
    else
      var (y, landed) := FallStep(s.y, TargetY(|s.stack|));
      if landed then StackCake(s.(y := y)) else s.(y := y)
  }

  // ---------------------------------------------------------------------------
  // Stacking

  /** A position in percent as a pixel offset in the play field. */
  function Pixels(position: real): real
  {
    position / 100.0 * FieldWidth
  }

  /** The game's overlap: the width minus the pixel distance between the two centres, at least 0. */
  function Overlap(x: real, top: Cake, width: real): real
  {
    Max(0.0, width - Abs(Pixels(x) - Pixels(top.position)))
  }

  /** Length of the intersection of two intervals given by centre and width. */
  function IntervalOverlap(c1: real, w1: real, c2: real, w2: real): real
  {
    Max(0.0, Min(c1 + w1 / 2.0, c2 + w2 / 2.0) - Max(c1 - w1 / 2.0, c2 - w2 / 2.0))
  }

  /**
   * The overlap lies between 0 and the falling cake's width, and when that
   * width is the top cake's width it is exactly the length of the
   * intersection of the two cakes' pixel intervals.
   */
  lemma OverlapSpec(x: real, top: Cake, width: real)
    requires width >= 0.0
    ensures 0.0 <= Overlap(x, top, width) <= width
    ensures top.width == width ==>
      Overlap(x, top, width) == IntervalOverlap(Pixels(x), width, Pixels(top.position), width)
  {
  }

  /**
   * The game's `stackCake`, after a landing. Too little overlap ends the
   * game with the stack, width and score unchanged. Otherwise one cake of
   * the overlap's width is put at the falling cake's position, the width
   * shrinks to it and the score grows by twice the overlap, rounded down;
   * the game then ends if the stack already held ten cakes or more.
   */
  function StackCake(s: Stacker): (t: Stacker)
    requires |s.stack| > 0
    ensures t.phase == Settling && t.x == s.x && t.y == s.y
    ensures var o := Overlap(s.x, s.stack[|s.stack| - 1], s.width);
      && (o < MinOverlap ==> t.over && t.stack == s.stack && t.width == s.width && t.score == s.score)
      && (o >= MinOverlap ==>
          && t.stack == s.stack + [Cake(s.x, o)]
          && t.width == o
          && t.score == s.score + (2.0 * o).Floor
          && (t.over <==> s.over || |s.stack| >= MaxLevel))
  {
    var o := Overlap(s.x, s.stack[|s.stack| - 1], s.width);
    if o < MinOverlap then s.(over := true, phase := Settling)
    else
      var t := s.(score := s.score + (2.0 * o).Floor, stack := s.stack + [Cake(s.x, o)],
                  width := o, phase := Settling);
      if |s.stack| >= MaxLevel then t.(over := true) else t
  }

  /**
   * The timeout after a good landing: the next cake appears at the drawn
   * position, back at the top, swinging right. `x` is the random draw,
   * somewhere in [20, 80).
   */
  function NextCake(s: Stacker, x: real): (t: Stacker)
    requires 20.0 <= x < 80.0
    ensures !s.over && s.phase.Settling? ==> t == s.(x := x, y := StartY, phase := Swinging(Right))
    ensures s.over || !s.phase.Settling? ==> t == s
  {
    if !s.over && s.phase.Settling? then s.(x := x, y := StartY, phase := Swinging(Right)) else s
  }

  /** The game's end rule: once over, a win exactly when the score reached 500. */
  function GameStatus(s: Stacker): Status
  {
    if s.over then Ended(Verdict(s.score, WinScore)) else Playing
  }

  /**
   * A landing ends the game exactly when the overlap is below 15 or the
   * stack already held ten cakes; the label is a win exactly when the score
   * after the landing reached 500.
   */
  lemma EndRule(s: Stacker)
    requires |s.stack| > 0 && !s.over
    ensures var o := Overlap(s.x, s.stack[|s.stack| - 1], s.width);
      GameStatus(StackCake(s)).Ended? <==> o < MinOverlap || |s.stack| >= MaxLevel
    ensures GameStatus(StackCake(s)) == Ended(Win) <==>
      StackCake(s).over && StackCake(s).score >= WinScore
  {
  }

  // ---------------------------------------------------------------------------
  // The invariant of a session

  /**
   * What every reachable session satisfies: the base cake at the bottom, at
   * most eleven cakes, each placed cake at least 15 and at most as wide as
   * the one below, the current width equal to the top cake's width, the
   * swinging cake inside the bounds, at least 30 points per placed cake, and
   * a falling cake above its target.
   */
  predicate Valid(s: Stacker)
  {
    && 1 <= |s.stack| <= MaxLevel + 1
    && s.stack[0] == BaseCake
    && (forall k | 1 <= k < |s.stack| :: MinOverlap <= s.stack[k].width <= s.stack[k - 1].width)
    && (forall k | 0 <= k < |s.stack| :: LeftBound <= s.stack[k].position <= RightBound)
    && s.width == s.stack[|s.stack| - 1].width
    && LeftBound <= s.x <= RightBound
    && (|s.stack| == MaxLevel + 1 ==> s.over)
    && s.score >= 30 * (|s.stack| - 1)
    && (s.phase.Swinging? ==> !s.over && s.y == StartY)
    && (s.phase.Falling? ==> !s.over && s.y < TargetY(|s.stack|))
  }

  /** What can happen to a session. */
  datatype Event = Swing | Drop | Fall | Next(x: real)

  predicate Legal(e: Event)
  {
    e.Next? ==> 20.0 <= e.x < 80.0
  }

  function Step(s: Stacker, e: Event): Stacker
    requires Valid(s) && Legal(e)
  {
    match e
    case Swing => SwingTick(s)
    case Drop => HandleDrop(s)
    case Fall => DropTick(s)
    case Next(x) => NextCake(s, x)
  }

  /**
   * Every event keeps the invariant; the stack only ever grows by one cake
   * at a time, the score never falls, and an ended game stays ended with its
   * stack and score frozen.
   */
  lemma StepSpec(s: Stacker, e: Event)
    requires Valid(s) && Legal(e)
    ensures Valid(Step(s, e))
    ensures Step(s, e).stack == s.stack || Step(s, e).stack == s.stack + [Step(s, e).stack[|s.stack|]]
    ensures Step(s, e).score >= s.score
    ensures s.over ==> Step(s, e) == s
  {
    var t := Step(s, e);
    if e.Fall? && !s.over && s.phase.Falling? {
      var (y, landed) := FallStep(s.y, TargetY(|s.stack|));
      if landed {
        var top := s.stack[|s.stack| - 1];
        OverlapSpec(s.x, top, s.width);
        var o := Overlap(s.x, top, s.width);
        if o >= MinOverlap {
          assert (2.0 * o).Floor >= 30;
          assert t.stack == s.stack + [Cake(s.x, o)];
          assert t.stack[|s.stack|] == Cake(s.x, o);
        }
      }
    }
  }
}

=== FILE: game_result.dfy ===
/**
 * The result every mini-game hands to the page shell when a session ends,
 * and what the games share.
 */
module GameResult {

  /** The label reported with the final score. */
  datatype Outcome = Win | Lose

  /** Whether a session is still running or has ended with a label. */
  datatype Status = Playing | Ended(outcome: Outcome)

  /** The smaller of two reals, as the games' `Math.min`. */
  function Min(a: real, b: real): real
  {
    if a <= b then a else b
  }

  /** The label for a final score measured against a game's target. */
  function Verdict(score: int, target: int): Outcome
  {
    if score >= target then Win else Lose
  }
}

=== FILE: match_cascade.dfy ===
/**
 * The cascade of the match-three game (`processMatches`): clear every triple,
 * let the fruits fall, refill the holes, and repeat while the new board has
 * a triple; and the generation of the starting board (`createValidGrid`).
 */
module MatchCascade {
  import opened MatchGrid
  import opened MatchGravity

  /** Number of random boards `createValidGrid` tries before it gives up. */
  const MaxAttempts: nat := 100

  /**
   * Where a cascade ends: the board, the number of cells it cleared over all
   * rounds, the number of rounds, and whether it stopped because the board
   * had no triple left (rather than because the round bound ran out).
   */
  datatype Cascade = Cascade(grid: Grid, cleared: nat, rounds: nat, settled: bool)

  /** One pass of the cascade loop body: clear, drop, refill. */
  function Round(g: Grid, supply: Supply, round: nat): (r: Grid)
    requires Square(g)
    ensures Square(r) && Full(r)
  {
    FillFromTop(Gravity(ClearTriples(g)), supply, round)
  }

  /**
   * The cascade from board g, starting at round `round` and allowed to run
   * up to round `limit`. A board without a triple is left alone with nothing
   * cleared. Otherwise every round clears between 3 and 36 cells and leaves
   * a full board, at least one round runs when the limit allows it, and the
   * cascade either settles on a board without a triple or stops at the
   * limit.
   */
  function Resolve(g: Grid, supply: Supply, round: nat, limit: nat): (c: Cascade)
    requires Square(g) && round <= limit
    ensures Square(c.grid)
    ensures c.settled ==> !HasTriple(c.grid)
    ensures !c.settled ==> round + c.rounds == limit
    ensures round + c.rounds <= limit
    ensures 3 * c.rounds <= c.cleared <= Size * Size * c.rounds
    ensures !HasTriple(g) <==> c == Cascade(g, 0, 0, true)
    ensures HasTriple(g) && round < limit ==> c.rounds >= 1
    ensures c.rounds > 0 ==> Full(c.grid)
    decreases limit - round
  {
    if !HasTriple(g) then Cascade(g, 0, 0, true)
    else if round == limit then Cascade(g, 0, 0, false)
    else
      var rest := Resolve(Round(g, supply, round), supply, round + 1, limit);
      TripleCellsBounds(g);
      Cascade(rest.grid, TripleCells(g) + rest.cleared, rest.rounds + 1, rest.settled)
  }

  /** The cascade `rest`, after `rounds` earlier rounds that cleared `cleared` cells. */
  function After(rest: Cascade, cleared: nat, rounds: nat): Cascade
  {
    Cascade(rest.grid, cleared + rest.cleared, rounds + rest.rounds, rest.settled)
  }

  /** A cascade that has a triple to clear and rounds left runs one round, then the rest. */
  lemma ResolveStep(g: Grid, supply: Supply, round: nat, limit: nat)
    requires Square(g) && HasTriple(g) && round < limit
    ensures Resolve(g, supply, round, limit) ==
      After(Resolve(Round(g, supply, round), supply, round + 1, limit), TripleCells(g), 1)
  {
  }

  /** A cascade with no triple to clear or no round left ends where it starts, clearing nothing. */
  lemma ResolveDone(g: Grid, supply: Supply, round: nat, limit: nat)
    requires Square(g) && round <= limit && (!HasTriple(g) || round == limit)
    ensures Resolve(g, supply, round, limit).grid == g
    ensures Resolve(g, supply, round, limit).cleared == 0
    ensures Resolve(g, supply, round, limit).rounds == 0
  {
  }

  /**
   * One round of the loop keeps its bookkeeping: from board g at round
   * `round`, with `cleared` cells cleared so far, to the next board one
   * round later with g's triple cells added.
   */
  lemma Accounted(total: Cascade, g: Grid, supply: Supply, round: nat, limit: nat, cleared: nat,
                  next: Grid, round': nat, cleared': nat)
    requires Square(g) && HasTriple(g) && round < limit
    requires total == After(Resolve(g, supply, round, limit), cleared, round)
    requires next == Round(g, supply, round) && round' == round + 1 && cleared' == cleared + TripleCells(g)
    ensures Square(next) && round' <= limit
    ensures total == After(Resolve(next, supply, round', limit), cleared', round')
  {
    ResolveStep(g, supply, round, limit);
  }

  /** Points of two batches of cleared cells add up. */
  lemma PointsAdd(a: nat, b: nat)
    ensures PointsPerCell * (a + b) == PointsPerCell * a + PointsPerCell * b
  {
  }

  /**
   * One turn of the `processMatches` loop, built from the imperative passes:
   * the loop test removes the triples (scoring them), then the body drops
   * and refills. When the board had a triple the result is one cascade round
   * and the points are ten per cleared cell.
   */
  method CascadeRound(g: Grid, supply: Supply, round: nat) returns (found: bool, r: Grid, points: nat)
    requires Square(g)
    ensures found <==> HasTriple(g)
    ensures found ==> r == Round(g, supply, round) && points == PointsPerCell * TripleCells(g)
    ensures !found ==> r == g && points == 0
  {
    var cleared;
    found, cleared, points := FindAndRemoveMatches(g);
    r := g;
    if found {
      var dropped := DropFruits(cleared);
      r := FillFromTop(dropped, supply, round);
    }
  }

  /**
   * The game's `processMatches` loop: while the board has a triple,
   * remove the triples, drop and refill, for at most `fuel` rounds. It ends
   * where the cascade ends and scores ten points per cleared cell.
   */
  method ProcessMatches(g: Grid, supply: Supply, fuel: nat) returns (r: Grid, points: nat, rounds: nat)
    requires Square(g)
    ensures r == Resolve(g, supply, 0, fuel).grid
    ensures points == PointsPerCell * Resolve(g, supply, 0, fuel).cleared
    ensures rounds == Resolve(g, supply, 0, fuel).rounds
  {
    ghost var total := Resolve(g, supply, 0, fuel);
    ghost var cleared: nat := 0;
    r, points, rounds := g, 0, 0;
    while rounds < fuel
      invariant Square(r) && rounds <= fuel
      invariant total == After(Resolve(r, supply, rounds, fuel), cleared, rounds)
      invariant points == PointsPerCell * cleared
    {
      var found, next, gained := CascadeRound(r, supply, rounds);
      if !found {
        break;
      }
      PointsAdd(cleared, TripleCells(r));
      ghost var before, roundsBefore, clearedBefore := r, rounds, cleared;
      cleared := cleared + TripleCells(r);
      r, points, rounds := next, points + gained, rounds + 1;
      Accounted(total, before, supply, roundsBefore, fuel, clearedBefore, r, rounds, cleared);
    }
    ResolveDone(r, supply, rounds, fuel);
  }

  /** The board of the given generation attempt: every cell drawn from the supply. */
  function RandomGrid(supply: Supply, attempt: nat): (g: Grid)
    ensures Square(g) && Full(g)
  {
    seq(Size, i requires 0 <= i < Size =>
      seq(Size, j requires 0 <= j < Size => Holds(supply(attempt, i, j))))
  }

  /**
   * The game's `createValidGrid`: draws boards until one has no triple,
   * giving up after MaxAttempts boards and keeping the last one. It keeps the
   * first board without a triple; a board with a triple comes back only when
   * all MaxAttempts attempts were spent.
   */
  method CreateValidGrid(supply: Supply) returns (g: Grid, attempts: nat)
    ensures 1 <= attempts <= MaxAttempts
    ensures g == RandomGrid(supply, attempts - 1)
    ensures forall k | 0 <= k < attempts - 1 :: HasTriple(RandomGrid(supply, k))
    ensures HasTriple(g) ==> attempts == MaxAttempts
  {
    // The do-while loop: the first board is drawn before the test.
    var last := 0;
    g := RandomGrid(supply, last);
    attempts := 1;
    var again := HasMatches(g);
    while again && attempts < MaxAttempts
      invariant attempts == last + 1 <= MaxAttempts
      invariant g == RandomGrid(supply, last) && (again <==> HasTriple(g))
      invariant forall k | 0 <= k < last :: HasTriple(RandomGrid(supply, k))
      decreases MaxAttempts - attempts
    {
      last := attempts;
      g := RandomGrid(supply, last);
      attempts := attempts + 1;
      again := HasMatches(g);
    }
  }
}

=== FILE: match_game.dfy ===
/**
 * The match-three session: a board, a score, twenty moves, the selected
 * cell, and the flag that locks the board while a cascade runs. A click
 * selects, deselects, re-selects, or swaps two neighbouring cells; the swap
 * costs a move and starts the cascade. The session ends when no move is
 * left, with a win when the score reached 500.
 */
module MatchGame {
  import opened GameResult
  import opened MatchGrid
  import opened MatchGravity
  import opened MatchCascade

  const MatchTarget: nat := 500
  const MovesLimit: nat := 20

  /** The selected cell, if any. */
  datatype Selection = NoSelection | Selected(row: int, col: int)

  datatype Game = Game(grid: Grid, score: nat, moves: nat, selection: Selection, processing: bool)

  /** The shape every reachable session has. */
  predicate Valid(s: Game)
  {
    && Square(s.grid)
    && s.moves <= MovesLimit
    && (s.selection.Selected? ==> OnBoard(s.selection.row, s.selection.col))
  }

  /** A new session on the generated board. */
  function Start(g: Grid): (s: Game)
    requires Square(g)
    ensures Valid(s)
    ensures s.grid == g && s.score == 0 && s.moves == MovesLimit && s.selection == NoSelection && !s.processing
  {
    Game(g, 0, MovesLimit, NoSelection, false)
  }

  function Abs(x: int): nat
  {
    if x < 0 then -x else x
  }

  /** The two cells share a side. */
  predicate Adjacent(r1: int, c1: int, r2: int, c2: int)
  {
    (Abs(r1 - r2) == 1 && c1 == c2) || (Abs(c1 - c2) == 1 && r1 == r2)
  }

  /** The board with the contents of two cells exchanged. */
  function Swap(g: Grid, r1: int, c1: int, r2: int, c2: int): (r: Grid)
    requires Square(g) && OnBoard(r1, c1) && OnBoard(r2, c2)
    ensures Square(r)
  {
    var t := g[r1 := g[r1][c1 := g[r2][c2]]];
    t[r2 := t[r2][c2 := g[r1][c1]]]
  }

  /**
   * A swap exchanges exactly the two cells and touches nothing else, and
   * swapping the same two cells again restores the board.
   */
  lemma SwapSpec(g: Grid, r1: int, c1: int, r2: int, c2: int)
    requires Square(g) && OnBoard(r1, c1) && OnBoard(r2, c2)
    ensures Swap(g, r1, c1, r2, c2)[r1][c1] == g[r2][c2]
    ensures Swap(g, r1, c1, r2, c2)[r2][c2] == g[r1][c1]
    ensures forall a, b | OnBoard(a, b) && (a, b) != (r1, c1) && (a, b) != (r2, c2) ::
      Swap(g, r1, c1, r2, c2)[a][b] == g[a][b]
    ensures Swap(Swap(g, r1, c1, r2, c2), r1, c1, r2, c2) == g
  {
    var r := Swap(g, r1, c1, r2, c2);
    var rr := Swap(r, r1, c1, r2, c2);
    assert forall a, b | OnBoard(a, b) :: rr[a][b] == g[a][b];
    SquareExt(rr, g);
  }

  /**
   * The game's `handleCellClick` on cell (row, col). Nothing happens when
   * no move is left or a cascade runs; otherwise the click selects a cell,
   * clears the selection when it hits the selected cell, swaps it with the
   * selected cell when the two are neighbours (spending a move and starting
   * the cascade), and moves the selection to it otherwise.
   */
  function Click(s: Game, row: int, col: int): (t: Game)
    requires Valid(s) && OnBoard(row, col)
    ensures Valid(t)
    ensures t.score == s.score
    ensures s.moves == 0 || s.processing ==> t == s
    ensures t.moves <= s.moves
    ensures t.moves < s.moves <==>
      !s.processing && s.moves > 0 && s.selection.Selected? &&
      Adjacent(row, col, s.selection.row, s.selection.col)
    ensures t.moves < s.moves ==>
      && t.moves == s.moves - 1
      && t.grid == Swap(s.grid, row, col, s.selection.row, s.selection.col)
      && t.selection == NoSelection
      && t.processing
    ensures t.moves == s.moves ==> t.grid == s.grid && t.processing == s.processing
    ensures s.moves > 0 && !s.processing && t.moves == s.moves ==>
      t.selection == (if s.selection == Selected(row, col) then NoSelection else Selected(row, col))
  {
    if s.moves == 0 || s.processing then s
    else match s.selection
      case NoSelection => s.(selection := Selected(row, col))
      case Selected(sr, sc) =>
        if row == sr && col == sc then s.(selection := NoSelection)
        else if Adjacent(row, col, sr, sc) then
          s.(grid := Swap(s.grid, row, col, sr, sc), moves := s.moves - 1,
             selection := NoSelection, processing := true)
        else s.(selection := Selected(row, col))
  }

  /**
   * Ten points per cleared cell always make a multiple of ten, nothing
   * cleared scores nothing, and three cells or more score at least thirty.
   */
  lemma CellPoints(k: nat)
    ensures (PointsPerCell * k) % PointsPerCell == 0
    ensures k == 0 <==> PointsPerCell * k == 0
    ensures k >= 3 <==> PointsPerCell * k >= 3 * PointsPerCell
  {
  }

  /**
   * The end of `processMatches` after a swap: the cascade runs on the swapped
   * board (with at most `fuel` rounds), every cleared cell adds ten points,
   * and the board is unlocked. Moves and selection are untouched; a board
   * with a triple always earns at least 30 points.
   */
  function FinishCascade(s: Game, supply: Supply, fuel: nat): (t: Game)
    requires Valid(s)
    ensures Valid(t)
    ensures !t.processing
    ensures t.moves == s.moves && t.selection == s.selection
    ensures t.score >= s.score
    ensures (t.score - s.score) % PointsPerCell == 0
    ensures HasTriple(s.grid) && fuel > 0 ==> t.score >= s.score + 3 * PointsPerCell
    ensures !HasTriple(s.grid) ==> t == s.(processing := false)
    ensures Resolve(s.grid, supply, 0, fuel).settled ==> !HasTriple(t.grid)
    ensures t.grid == Resolve(s.grid, supply, 0, fuel).grid
    ensures t.score == s.score + PointsPerCell * Resolve(s.grid, supply, 0, fuel).cleared
  {
    var c := Resolve(s.grid, supply, 0, fuel);
    CellPoints(c.cleared);
    s.(grid := c.grid, score := s.score + PointsPerCell * c.cleared, processing := false)
  }

  /** The game's end rule: once no move is left the session ends, won at 500 points. */
  function GameStatus(s: Game): Status
  {
    if s.moves == 0 then Ended(Verdict(s.score, MatchTarget)) else Playing
  }

  /**
   * The session ends exactly when the moves run out, it is won exactly when
   * the score reached the target, and an ended session ignores every click.
   */
  lemma EndRule(s: Game, row: int, col: int)
    requires Valid(s) && OnBoard(row, col)
    ensures GameStatus(s).Ended? <==> s.moves == 0
    ensures GameStatus(s) == Ended(Win) <==> s.moves == 0 && s.score >= MatchTarget
    ensures GameStatus(s).Ended? ==> Click(s, row, col) == s
  {
  }

  /** What can happen to a session: a click on a cell, or the running cascade finishing. */
  datatype Event = ClickAt(row: int, col: int) | CascadeDone(supply: Supply, fuel: nat)

  predicate Legal(e: Event)
  {
    e.ClickAt? ==> OnBoard(e.row, e.col)
  }

  function Step(s: Game, e: Event): (t: Game)
    requires Valid(s) && Legal(e)
    ensures Valid(t)
  {
    match e
    case ClickAt(row, col) => Click(s, row, col)
    case CascadeDone(supply, fuel) => if s.processing then FinishCascade(s, supply, fuel) else s
  }

  /** The session after a sequence of events. */
  function Run(s: Game, events: seq<Event>): (t: Game)
    requires Valid(s)
    requires forall k | 0 <= k < |events| :: Legal(events[k])
    ensures Valid(t)
    decreases |events|
  {
    if events == [] then s else Run(Step(s, events[0]), events[1..])
  }

  /** Number of the events of the sequence that swap two cells. */
  function Swaps(s: Game, events: seq<Event>): nat
    requires Valid(s)
    requires forall k | 0 <= k < |events| :: Legal(events[k])
    decreases |events|
  {
    if events == [] then 0
    else
      var t := Step(s, events[0]);
      (if t.moves < s.moves then 1 else 0) + Swaps(t, events[1..])
  }

  /**
   * Over any sequence of events the score never falls and every swap spends
   * exactly one move, so a session makes at most twenty swaps.
   */
  lemma {:induction false} RunAccounting(s: Game, events: seq<Event>)
    requires Valid(s)
    requires forall k | 0 <= k < |events| :: Legal(events[k])
    ensures Run(s, events).score >= s.score
    ensures Run(s, events).moves + Swaps(s, events) == s.moves
    ensures Swaps(s, events) <= MovesLimit
    decreases |events|
  {
    if events != [] {
      RunAccounting(Step(s, events[0]), events[1..]);
    }
  }
}

=== FILE: match_gravity.dfy ===
/**
 * Gravity and refill on the match-three board: every column lets its fruits
 * fall to the bottom, keeping their order, and the holes left at the top are
 * then filled with fresh fruits.
 */
module MatchGravity {
  import opened MatchGrid

  /**
   * The random fruit source: `supply(round, i, j)` is the fruit drawn for
   * cell (i, j) in the given refill round or generation attempt.
   */
  type Supply = (nat, nat, nat) -> Fruit

  /** Column j of the grid, top to bottom. */
  function Column(g: Grid, j: int): (c: seq<Cell>)
    requires Square(g) && 0 <= j < Size
    ensures |c| == Size
    ensures forall i | 0 <= i < Size :: c[i] == g[i][j]
  {
    seq(Size, i requires 0 <= i < Size => g[i][j])
  }

  /** The fruits of a column, top to bottom, with the empty cells left out. */
  function Fruits(col: seq<Cell>): (r: seq<Cell>)
    ensures |r| <= |col|
    ensures forall k | 0 <= k < |r| :: r[k].Holds?
  {
    if col == [] then []
    else (if col[0].Holds? then [col[0]] else []) + Fruits(col[1..])
  }

  /** n empty cells. */
  function Gaps(n: nat): (r: seq<Cell>)
    ensures |r| == n
    ensures forall k | 0 <= k < n :: r[k] == Empty
  {
    seq(n, _ => Empty)
  }

  /** No empty cell lies below a fruit. */
  predicate Settled(col: seq<Cell>)
  {
    forall a, b | 0 <= a < b < |col| :: col[a].Holds? ==> col[b].Holds?
  }

  lemma {:induction false} FruitsAppend(a: seq<Cell>, b: seq<Cell>)
    ensures Fruits(a + b) == Fruits(a) + Fruits(b)
    decreases |a|
  {
    if a == [] {
      assert a + b == b;
    } else {
      assert (a + b)[1..] == a[1..] + b;
      FruitsAppend(a[1..], b);
    }
  }

  lemma {:induction false} FruitsOfGaps(n: nat)
    ensures Fruits(Gaps(n)) == []
  {
    if n > 0 {
      assert Gaps(n)[1..] == Gaps(n - 1);
      FruitsOfGaps(n - 1);
    }
  }

  /** A sequence of fruits only is its own list of fruits. */
  lemma {:induction false} FruitsOfFruits(col: seq<Cell>)
    requires forall k | 0 <= k < |col| :: col[k].Holds?
    ensures Fruits(col) == col
  {
    if col != [] {
      FruitsOfFruits(col[1..]);
    }
  }

  /** A column after gravity: its holes on top, then its fruits in their original order. */
  function Settle(col: seq<Cell>): seq<Cell>
  {
    Gaps(|col| - |Fruits(col)|) + Fruits(col)
  }

  /**
   * Gravity keeps the column's length and its fruits, in order and in
   * number, and leaves every hole above every fruit.
   */
  lemma SettleSpec(col: seq<Cell>)
    ensures |Settle(col)| == |col|
    ensures Fruits(Settle(col)) == Fruits(col)
    ensures Settled(Settle(col))
  {
    var f := Fruits(col);
    FruitsAppend(Gaps(|col| - |f|), f);
    FruitsOfGaps(|col| - |f|);
    FruitsOfFruits(f);
  }

  /** A settled column is its own gravity: settling twice changes nothing. */
  lemma {:induction false} SettleSettled(col: seq<Cell>)
    requires Settled(col)
    ensures Settle(col) == col
    decreases |col|
  {
    if col != [] && col[0].Empty? {
      SettleSettled(col[1..]);
      assert col == [col[0]] + col[1..];
    } else {
      FruitsOfFruits(col);
    }
  }

  /**
   * The state of the drop scan at read index i and write index w: the cells
   * not yet read are as they were, the cells between the two indices are
   * empty, and below the write index lie the fruits read so far, in order.
   */
  ghost predicate Dropping(col: seq<Cell>, r: seq<Cell>, i: int, w: int)
  {
    && -1 <= i <= w < |col|
    && |r| == |col|
    && r[..i + 1] == col[..i + 1]
    && (forall k | i < k <= w :: r[k] == Empty)
    && r[w + 1..] == Fruits(col[i + 1..])
  }

  /** Reading a fruit at cell i moves it down to the write index and empties cell i. */
  lemma DropFruit(col: seq<Cell>, r: seq<Cell>, i: int, w: int)
    requires Dropping(col, r, i, w) && 0 <= i && r[i] != Empty
    ensures Dropping(col, if w != i then r[w := r[i]][i := Empty] else r[w := r[i]], i - 1, w - 1)
  {
  }

  /** Reading a hole at cell i leaves the column as it is. */
  lemma DropHole(col: seq<Cell>, r: seq<Cell>, i: int, w: int)
    requires Dropping(col, r, i, w) && 0 <= i && r[i] == Empty
    ensures Dropping(col, r, i - 1, w)
  {
  }

  /** When the scan has read the whole column, the column is settled. */
  lemma DropDone(col: seq<Cell>, r: seq<Cell>, w: int)
    requires Dropping(col, r, -1, w)
    ensures r == Settle(col)
  {
  }

  /**
   * The inner loop of the game's `dropFruits` on one column: a write index
   * walks up from the bottom, every fruit met while scanning upwards is
   * copied down to it, and the cell it came from is emptied.
   */
  method DropColumn(col: seq<Cell>) returns (r: seq<Cell>)
    ensures r == Settle(col)
  {
    r := col;
    var w := |col| - 1;
    var i := |col| - 1;
    while i >= 0
      invariant Dropping(col, r, i, w)
      decreases i + 1
    {
      if r[i] != Empty {
        DropFruit(col, r, i, w);
        r := r[w := r[i]];
        if w != i {
          r := r[i := Empty];
        }
        w := w - 1;
      } else {
        DropHole(col, r, i, w);
      }
      i := i - 1;
    }
    DropDone(col, r, w);
  }

  /** The grid with column j replaced. */
  function WithColumn(g: Grid, j: int, col: seq<Cell>): (r: Grid)
    requires Square(g) && 0 <= j < Size && |col| == Size
    ensures Square(r)
    ensures forall a, b | OnBoard(a, b) :: r[a][b] == if b == j then col[a] else g[a][b]
  {
    seq(Size, i requires 0 <= i < Size => g[i][j := col[i]])
  }

  /** Every column of the grid after gravity. */
  function Gravity(g: Grid): (r: Grid)
    requires Square(g)
    ensures Square(r)
  {
    seq(Size, i requires 0 <= i < Size =>
      seq(Size, j requires 0 <= j < Size => (SettleSpec(Column(g, j)); Settle(Column(g, j))[i])))
  }

  /**
   * Gravity works column by column: each column of the result holds the
   * fruits of the same column before, in the same order, with every hole
   * above every fruit, and a column without holes is left unchanged.
   */
  lemma GravitySpec(g: Grid)
    requires Square(g)
    ensures forall j | 0 <= j < Size :: Column(Gravity(g), j) == Settle(Column(g, j))
    ensures forall j | 0 <= j < Size :: Fruits(Column(Gravity(g), j)) == Fruits(Column(g, j))
    ensures forall j | 0 <= j < Size :: Settled(Column(Gravity(g), j))
    ensures forall j | 0 <= j < Size && Settled(Column(g, j)) :: Column(Gravity(g), j) == Column(g, j)
  {
    forall j | 0 <= j < Size
      ensures Column(Gravity(g), j) == Settle(Column(g, j))
    {
      SettleSpec(Column(g, j));
    }
    forall j | 0 <= j < Size
      ensures Fruits(Column(Gravity(g), j)) == Fruits(Column(g, j))
      ensures Settled(Column(Gravity(g), j))
    {
      SettleSpec(Column(g, j));
    }
    forall j | 0 <= j < Size && Settled(Column(g, j))
      ensures Column(Gravity(g), j) == Column(g, j)
    {
      SettleSettled(Column(g, j));
    }
  }

  /** The game's `dropFruits`: the column loop around `DropColumn`. */
  method DropFruits(g: Grid) returns (r: Grid)
    requires Square(g)
    ensures r == Gravity(g)
  {
    r := g;
    for j := 0 to Size
      invariant Square(r)
      invariant forall a, b | OnBoard(a, b) :: r[a][b] == if b < j then Gravity(g)[a][b] else g[a][b]
    {
      assert Column(r, j) == Column(g, j);
      var col := DropColumn(Column(r, j));
      SettleSpec(Column(g, j));
      r := WithColumn(r, j, col);
    }
    SquareExt(r, Gravity(g));
  }

  /** The game's `fillFromTop`: every empty cell receives the fruit the supply draws for it. */
  function FillFromTop(g: Grid, supply: Supply, round: nat): (r: Grid)
    requires Square(g)
    ensures Square(r) && Full(r)
    ensures forall i, j | OnBoard(i, j) && g[i][j].Holds? :: r[i][j] == g[i][j]
    ensures forall i, j | OnBoard(i, j) && g[i][j].Empty? :: r[i][j] == Holds(supply(round, i, j))
  {
    seq(Size, i requires 0 <= i < Size =>
      seq(Size, j requires 0 <= j < Size => if g[i][j].Holds? then g[i][j] else Holds(supply(round, i, j))))
  }
}

=== FILE: match_grid.dfy ===
/**
 * The match-three board: a 6 x 6 grid of cells, each empty or holding one of
 * five fruits, the triples (three equal fruits in a row or a column) the game
 * looks for, and the pass that finds every triple, clears its cells and
 * awards ten points per cleared cell.
 */
module MatchGrid {

  datatype Fruit = Strawberry | Orange | Lemon | Grape | Watermelon

  /** A grid cell; `Empty` is the game's `null`. */
  datatype Cell = Empty | Holds(fruit: Fruit)

  /** Rows top to bottom, each row left to right. */
  type Grid = seq<seq<Cell>>

  const Size: nat := 6
  const PointsPerCell: nat := 10

  /** A Size x Size matrix. */
  predicate Square<T>(m: seq<seq<T>>)
  {
    |m| == Size && forall i | 0 <= i < Size :: |m[i]| == Size
  }

  predicate OnBoard(row: int, col: int)
  {
    0 <= row < Size && 0 <= col < Size
  }

  /** No cell of the grid is empty. */
  predicate Full(g: Grid)
    requires Square(g)
  {
    forall i, j | 0 <= i < Size && 0 <= j < Size :: g[i][j].Holds?
  }

  /** Row i holds three equal fruits at columns j, j + 1 and j + 2. */
  predicate RowTriple(g: Grid, i: int, j: int)
    requires Square(g)
  {
    && 0 <= i < Size && 0 <= j < Size - 2
    && g[i][j].Holds? && g[i][j] == g[i][j + 1] && g[i][j] == g[i][j + 2]
  }

  /** Column j holds three equal fruits at rows i, i + 1 and i + 2. */
  predicate ColumnTriple(g: Grid, i: int, j: int)
    requires Square(g)
  {
    && 0 <= i < Size - 2 && 0 <= j < Size
    && g[i][j].Holds? && g[i][j] == g[i + 1][j] && g[i][j] == g[i + 2][j]
  }

  /** Some row or column of the grid holds a triple. */
  predicate HasTriple(g: Grid)
    requires Square(g)
  {
    exists i, j | 0 <= i < Size && 0 <= j < Size :: RowTriple(g, i, j) || ColumnTriple(g, i, j)
  }

  /** Cell (i, j) is one of the three cells of some row triple. */
  predicate InRowTriple(g: Grid, i: int, j: int)
    requires Square(g)
  {
    RowTriple(g, i, j) || RowTriple(g, i, j - 1) || RowTriple(g, i, j - 2)
  }

  /** Cell (i, j) is one of the three cells of some column triple. */
  predicate InColumnTriple(g: Grid, i: int, j: int)
    requires Square(g)
  {
    ColumnTriple(g, i, j) || ColumnTriple(g, i - 1, j) || ColumnTriple(g, i - 2, j)
  }

  /** Cell (i, j) belongs to a horizontal or vertical triple: the pass clears it. */
  predicate InTriple(g: Grid, i: int, j: int)
    requires Square(g)
  {
    InRowTriple(g, i, j) || InColumnTriple(g, i, j)
  }

  /** Two grids are equal when they agree cell by cell. */
  lemma SquareExt<T>(a: seq<seq<T>>, b: seq<seq<T>>)
    requires Square(a) && Square(b)
    requires forall i, j | OnBoard(i, j) :: a[i][j] == b[i][j]
    ensures a == b
  {
    forall i | 0 <= i < Size
      ensures a[i] == b[i]
    {
      assert forall j | 0 <= j < Size :: a[i][j] == b[i][j];
    }
  }

  // ---------------------------------------------------------------------------
  // Clearing, declaratively

  /** The grid with every cell of every triple emptied and all other cells kept. */
  function ClearTriples(g: Grid): (r: Grid)
    requires Square(g)
    ensures Square(r)
  {
    seq(Size, i requires 0 <= i < Size =>
      seq(Size, j requires 0 <= j < Size => if InTriple(g, i, j) then Empty else g[i][j]))
  }

  /**
   * Clearing empties exactly the cells of the triples, keeps every other cell,
   * and leaves a grid with no triple at all.
   */
  lemma ClearTriplesSpec(g: Grid)
    requires Square(g)
    ensures forall i, j | OnBoard(i, j) && InTriple(g, i, j) :: ClearTriples(g)[i][j] == Empty
    ensures forall i, j | OnBoard(i, j) && !InTriple(g, i, j) :: ClearTriples(g)[i][j] == g[i][j]
    ensures !HasTriple(ClearTriples(g))
  {
    var r: Grid := ClearTriples(g);
    // a fruit that survives the pass is the fruit g had there, outside any triple of g
    assert forall a, b | OnBoard(a, b) && r[a][b].Holds? :: r[a][b] == g[a][b] && !InTriple(g, a, b);
    forall i, j | OnBoard(i, j)
      ensures !RowTriple(r, i, j) && !ColumnTriple(r, i, j)
    {
      if r[i][j].Holds? {
        assert !RowTriple(g, i, j) && !ColumnTriple(g, i, j);
      }
    }
  }

  /** A grid without triples is left as it is by the clearing pass. */
  lemma ClearWithoutTriples(g: Grid)
    requires Square(g) && !HasTriple(g)
    ensures ClearTriples(g) == g
  {
    forall i, j | OnBoard(i, j)
      ensures ClearTriples(g)[i][j] == g[i][j]
    {
      assert !RowTriple(g, i, j) && !ColumnTriple(g, i, j);
      assert !RowTriple(g, i, j - 1) && !ColumnTriple(g, i - 1, j);
      assert !RowTriple(g, i, j - 2) && !ColumnTriple(g, i - 2, j);
    }
    SquareExt(ClearTriples(g), g);
  }

  // ---------------------------------------------------------------------------
  // Counting the cleared cells, in the order the clearing loop visits them

  /** Number of triple cells among columns 0 .. n - 1 of row i. */
  function RowTripleCells(g: Grid, i: int, n: nat): nat
    requires Square(g) && 0 <= i < Size && n <= Size
  {
    if n == 0 then 0
    else RowTripleCells(g, i, n - 1) + (if InTriple(g, i, n - 1) then 1 else 0)
  }

  /** Number of triple cells in rows 0 .. m - 1. */
  function TripleCellsAbove(g: Grid, m: nat): nat
    requires Square(g) && m <= Size
  {
    if m == 0 then 0
    else TripleCellsAbove(g, m - 1) + RowTripleCells(g, m - 1, |g|)
  }

  /** Number of cells the clearing pass empties. */
  function TripleCells(g: Grid): nat
    requires Square(g)
  {
    TripleCellsAbove(g, |g|)
  }

  lemma {:induction false} RowTripleCellsMono(g: Grid, i: int, m: nat, n: nat)
    requires Square(g) && 0 <= i < Size && m <= n <= Size
    ensures RowTripleCells(g, i, m) <= RowTripleCells(g, i, n)
    decreases n
  {
    if m < n {
      RowTripleCellsMono(g, i, m, n - 1);
    }
  }

  lemma {:induction false} TripleCellsAboveMono(g: Grid, m: nat, n: nat)
    requires Square(g) && m <= n <= Size
    ensures TripleCellsAbove(g, m) <= TripleCellsAbove(g, n)
    decreases n
  {
    if m < n {
      TripleCellsAboveMono(g, m, n - 1);
    }
  }

  lemma {:induction false} RowTripleCellsBound(g: Grid, i: int, n: nat)
    requires Square(g) && 0 <= i < Size && n <= Size
    ensures RowTripleCells(g, i, n) <= n
    ensures (forall j | 0 <= j < n :: !InTriple(g, i, j)) ==> RowTripleCells(g, i, n) == 0
  {
    if n > 0 {
      RowTripleCellsBound(g, i, n - 1);
    }
  }

  lemma {:induction false} TripleCellsAboveBound(g: Grid, m: nat)
    requires Square(g) && m <= Size
    ensures TripleCellsAbove(g, m) <= m * Size
    ensures (forall i, j | 0 <= i < m && 0 <= j < Size :: !InTriple(g, i, j)) ==> TripleCellsAbove(g, m) == 0
  {
    if m > 0 {
      TripleCellsAboveBound(g, m - 1);
      RowTripleCellsBound(g, m - 1, Size);
    }
  }

  /** Row i of the grid contributes at least one cleared cell if any of its cells is in a triple. */
  lemma RowHasTripleCell(g: Grid, i: int, j: int)
    requires Square(g) && OnBoard(i, j) && InTriple(g, i, j)
    ensures RowTripleCells(g, i, Size) >= 1
  {
    RowTripleCellsMono(g, i, j + 1, Size);
  }

  /**
   * The pass clears no cell when the grid has no triple, at least the three
   * cells of one triple when it has one, and never more than the whole grid.
   */
  lemma TripleCellsBounds(g: Grid)
    requires Square(g)
    ensures TripleCells(g) <= Size * Size
    ensures HasTriple(g) ==> TripleCells(g) >= 3
    ensures !HasTriple(g) ==> TripleCells(g) == 0
  {
    TripleCellsAboveBound(g, Size);
    if HasTriple(g) {
      var i, j :| OnBoard(i, j) && (RowTriple(g, i, j) || ColumnTriple(g, i, j));
      if RowTriple(g, i, j) {
        assert InTriple(g, i, j) && InTriple(g, i, j + 1) && InTriple(g, i, j + 2);
        assert RowTripleCells(g, i, j + 1) == RowTripleCells(g, i, j) + 1;
        assert RowTripleCells(g, i, j + 2) == RowTripleCells(g, i, j) + 2;
        assert RowTripleCells(g, i, j + 3) == RowTripleCells(g, i, j) + 3;
        RowTripleCellsMono(g, i, j + 3, Size);
        TripleCellsAboveMono(g, i + 1, Size);
      } else {
        assert InTriple(g, i, j) && InTriple(g, i + 1, j) && InTriple(g, i + 2, j);
        RowHasTripleCell(g, i, j);
        RowHasTripleCell(g, i + 1, j);
        RowHasTripleCell(g, i + 2, j);
        assert TripleCellsAbove(g, i + 1) >= 1;
        assert TripleCellsAbove(g, i + 2) >= 2;
        assert TripleCellsAbove(g, i + 3) >= 3;
        TripleCellsAboveMono(g, i + 3, Size);
      }
    } else {
      forall i, j | OnBoard(i, j)
        ensures !InTriple(g, i, j)
      {
        assert !RowTriple(g, i, j) && !ColumnTriple(g, i, j);
        assert !RowTriple(g, i, j - 1) && !ColumnTriple(g, i - 1, j);
        assert !RowTriple(g, i, j - 2) && !ColumnTriple(g, i - 2, j);
      }
    }
  }

  // ---------------------------------------------------------------------------
  // The scanning loops of the game

  /** Scan position (r, c) comes before scan position (i, j) in row-major order. */
  predicate Before(r: int, c: int, i: int, j: int)
  {
    r < i || (r == i && c < j)
  }

  /** A row triple starting at a position the scan has passed covers cell (a, b). */
  predicate RowMarkedBefore(g: Grid, a: int, b: int, i: int, j: int)
    requires Square(g)
  {
    || (RowTriple(g, a, b) && Before(a, b, i, j))
    || (RowTriple(g, a, b - 1) && Before(a, b - 1, i, j))
    || (RowTriple(g, a, b - 2) && Before(a, b - 2, i, j))
  }

  /** A column triple starting at a position the scan has passed covers cell (a, b). */
  predicate ColumnMarkedBefore(g: Grid, a: int, b: int, i: int, j: int)
    requires Square(g)
  {
    || (ColumnTriple(g, a, b) && Before(a, b, i, j))
    || (ColumnTriple(g, a - 1, b) && Before(a - 1, b, i, j))
    || (ColumnTriple(g, a - 2, b) && Before(a - 2, b, i, j))
  }

  /** The marks with cell (a, b) set. */
  function Mark(m: seq<seq<bool>>, a: int, b: int): (r: seq<seq<bool>>)
    requires Square(m) && OnBoard(a, b)
    ensures Square(r)
    ensures forall x, y | OnBoard(x, y) :: r[x][y] == (m[x][y] || (x == a && y == b))
  {
    m[a := m[a][b := true]]
  }

  /** The game's `hasMatches`: scans rows, then columns, and stops at the first triple. */
  method HasMatches(g: Grid) returns (found: bool)
    requires Square(g)
    ensures found <==> HasTriple(g)
  {
    for i := 0 to Size
      invariant forall r, c | 0 <= r < i && 0 <= c < Size :: !RowTriple(g, r, c)
    {
      for j := 0 to Size - 2
        invariant forall r, c | Before(r, c, i, j) && 0 <= c < Size :: !RowTriple(g, r, c)
      {
        if g[i][j].Holds? && g[i][j] == g[i][j + 1] && g[i][j] == g[i][j + 2] {
          assert RowTriple(g, i, j);
          return true;
        }
      }
    }
    for i := 0 to Size - 2
      invariant forall r, c | 0 <= r < i && 0 <= c < Size :: !ColumnTriple(g, r, c)
    {
      for j := 0 to Size
        invariant forall r, c | Before(r, c, i, j) && 0 <= c < Size :: !ColumnTriple(g, r, c)
      {
        if g[i][j].Holds? && g[i][j] == g[i + 1][j] && g[i][j] == g[i + 2][j] {
          assert ColumnTriple(g, i, j);
          return true;
        }
      }
    }
    return false;
  }

  /** Some row triple starts at a position the scan has passed. */
  ghost predicate RowFoundBefore(g: Grid, i: int, j: int)
    requires Square(g)
  {
    exists a, b | OnBoard(a, b) && Before(a, b, i, j) :: RowTriple(g, a, b)
  }

  /** Some column triple starts at a position the scan has passed. */
  ghost predicate ColumnFoundBefore(g: Grid, i: int, j: int)
    requires Square(g)
  {
    exists a, b | OnBoard(a, b) && Before(a, b, i, j) :: ColumnTriple(g, a, b)
  }

  /** The marks with the three cells of the row triple starting at (i, j) set. */
  function MarkRowTriple(m: seq<seq<bool>>, i: int, j: int): (r: seq<seq<bool>>)
    requires Square(m) && 0 <= i < Size && 0 <= j < Size - 2
    ensures Square(r)
    ensures forall x, y | OnBoard(x, y) :: r[x][y] == (m[x][y] || (x == i && j <= y <= j + 2))
  {
    Mark(Mark(Mark(m, i, j), i, j + 1), i, j + 2)
  }

  /** The marks with the three cells of the column triple starting at (i, j) set. */
  function MarkColumnTriple(m: seq<seq<bool>>, i: int, j: int): (r: seq<seq<bool>>)
    requires Square(m) && 0 <= i < Size - 2 && 0 <= j < Size
    ensures Square(r)
    ensures forall x, y | OnBoard(x, y) :: r[x][y] == (m[x][y] || (y == j && i <= x <= i + 2))
  {
    Mark(Mark(Mark(m, i, j), i + 1, j), i + 2, j)
  }

  /** One step of the row scan, at start (i, j), keeps the marks and the flag in step with the scan. */
  lemma RowScanStep(g: Grid, i: int, j: int)
    requires Square(g) && 0 <= i < Size && 0 <= j < Size - 2
    ensures forall a, b | OnBoard(a, b) ::
      RowMarkedBefore(g, a, b, i, j + 1) == (RowMarkedBefore(g, a, b, i, j) || (RowTriple(g, i, j) && a == i && j <= b <= j + 2))
    ensures RowFoundBefore(g, i, j + 1) <==> RowFoundBefore(g, i, j) || RowTriple(g, i, j)
  {
    if RowFoundBefore(g, i, j + 1) {
      var a, b :| OnBoard(a, b) && Before(a, b, i, j + 1) && RowTriple(g, a, b);
      if !(a == i && b == j) {
        assert Before(a, b, i, j);
      }
    }
    if RowTriple(g, i, j) {
      assert Before(i, j, i, j + 1);
    }
    if RowFoundBefore(g, i, j) {
      var a, b :| OnBoard(a, b) && Before(a, b, i, j) && RowTriple(g, a, b);
      assert Before(a, b, i, j + 1);
    }
  }

  /** Finishing row i of the row scan is the same as starting row i + 1. */
  lemma RowScanWrap(g: Grid, i: int)
    requires Square(g) && 0 <= i < Size
    ensures forall a, b | OnBoard(a, b) :: RowMarkedBefore(g, a, b, i, Size - 2) == RowMarkedBefore(g, a, b, i + 1, 0)
    ensures RowFoundBefore(g, i, Size - 2) <==> RowFoundBefore(g, i + 1, 0)
  {
    if RowFoundBefore(g, i + 1, 0) {
      var a, b :| OnBoard(a, b) && Before(a, b, i + 1, 0) && RowTriple(g, a, b);
      assert Before(a, b, i, Size - 2);
    }
    if RowFoundBefore(g, i, Size - 2) {
      var a, b :| OnBoard(a, b) && Before(a, b, i, Size - 2) && RowTriple(g, a, b);
      assert Before(a, b, i + 1, 0);
    }
  }

  /** One step of the column scan, at start (i, j), keeps the marks and the flag in step with the scan. */
  lemma ColumnScanStep(g: Grid, i: int, j: int)
    requires Square(g) && 0 <= i < Size - 2 && 0 <= j < Size
    ensures forall a, b | OnBoard(a, b) ::
      ColumnMarkedBefore(g, a, b, i, j + 1) == (ColumnMarkedBefore(g, a, b, i, j) || (ColumnTriple(g, i, j) && b == j && i <= a <= i + 2))
    ensures ColumnFoundBefore(g, i, j + 1) <==> ColumnFoundBefore(g, i, j) || ColumnTriple(g, i, j)
  {
    if ColumnFoundBefore(g, i, j + 1) {
      var a, b :| OnBoard(a, b) && Before(a, b, i, j + 1) && ColumnTriple(g, a, b);
      if !(a == i && b == j) {
        assert Before(a, b, i, j);
      }
    }
    if ColumnTriple(g, i, j) {
      assert Before(i, j, i, j + 1);
    }
    if ColumnFoundBefore(g, i, j) {
      var a, b :| OnBoard(a, b) && Before(a, b, i, j) && ColumnTriple(g, a, b);
      assert Before(a, b, i, j + 1);
    }
  }

  /** Finishing row i of the column scan is the same as starting row i + 1. */
  lemma ColumnScanWrap(g: Grid, i: int)
    requires Square(g) && 0 <= i < Size - 2
    ensures forall a, b | OnBoard(a, b) :: ColumnMarkedBefore(g, a, b, i, Size) == ColumnMarkedBefore(g, a, b, i + 1, 0)
    ensures ColumnFoundBefore(g, i, Size) <==> ColumnFoundBefore(g, i + 1, 0)
  {
    if ColumnFoundBefore(g, i + 1, 0) {
      var a, b :| OnBoard(a, b) && Before(a, b, i + 1, 0) && ColumnTriple(g, a, b);
      assert Before(a, b, i, Size);
    }
    if ColumnFoundBefore(g, i, Size) {
      var a, b :| OnBoard(a, b) && Before(a, b, i, Size) && ColumnTriple(g, a, b);
      assert Before(a, b, i + 1, 0);
    }
  }

  /** First loop of `findAndRemoveMatches`: marks the three cells of every row triple. */
  method MarkRows(g: Grid) returns (marks: seq<seq<bool>>, found: bool)
    requires Square(g)
    ensures Square(marks)
    ensures forall a, b | OnBoard(a, b) :: marks[a][b] == InRowTriple(g, a, b)
    ensures found <==> exists a, b | OnBoard(a, b) :: RowTriple(g, a, b)
  {
    marks := seq(Size, _ => seq(Size, _ => false));
    found := false;
    for i := 0 to Size
      invariant Square(marks)
      invariant forall a, b | OnBoard(a, b) :: marks[a][b] == RowMarkedBefore(g, a, b, i, 0)
      invariant found <==> RowFoundBefore(g, i, 0)
    {
      for j := 0 to Size - 2
        invariant Square(marks)
        invariant forall a, b | OnBoard(a, b) :: marks[a][b] == RowMarkedBefore(g, a, b, i, j)
        invariant found <==> RowFoundBefore(g, i, j)
      {
        RowScanStep(g, i, j);
        if g[i][j].Holds? && g[i][j] == g[i][j + 1] && g[i][j] == g[i][j + 2] {
          marks := MarkRowTriple(marks, i, j);
          found := true;
        }
      }
      RowScanWrap(g, i);
    }
    assert forall a, b | OnBoard(a, b) :: Before(a, b, Size, 0);
  }

  /** Second loop of `findAndRemoveMatches`: adds the three cells of every column triple. */
  method MarkColumns(g: Grid, rowMarks: seq<seq<bool>>) returns (marks: seq<seq<bool>>, found: bool)
    requires Square(g) && Square(rowMarks)
    ensures Square(marks)
    ensures forall a, b | OnBoard(a, b) :: marks[a][b] == (rowMarks[a][b] || InColumnTriple(g, a, b))
    ensures found <==> exists a, b | OnBoard(a, b) :: ColumnTriple(g, a, b)
  {
    marks := rowMarks;
    found := false;
    for i := 0 to Size - 2
      invariant Square(marks)
      invariant forall a, b | OnBoard(a, b) :: marks[a][b] == (rowMarks[a][b] || ColumnMarkedBefore(g, a, b, i, 0))
      invariant found <==> ColumnFoundBefore(g, i, 0)
    {
      for j := 0 to Size
        invariant Square(marks)
        invariant forall a, b | OnBoard(a, b) :: marks[a][b] == (rowMarks[a][b] || ColumnMarkedBefore(g, a, b, i, j))
        invariant found <==> ColumnFoundBefore(g, i, j)
      {
        ColumnScanStep(g, i, j);
        if g[i][j].Holds? && g[i][j] == g[i + 1][j] && g[i][j] == g[i + 2][j] {
          marks := MarkColumnTriple(marks, i, j);
          found := true;
        }
      }
      ColumnScanWrap(g, i);
    }
    assert forall a, b | OnBoard(a, b) && a < Size - 2 :: Before(a, b, Size - 2, 0);
  }

  /** The cells the clearing scan has passed are emptied when they belong to a triple; the rest are untouched. */
  ghost predicate ClearedBefore(g: Grid, r: Grid, i: int, j: int)
    requires Square(g) && Square(r)
  {
    forall a, b | OnBoard(a, b) :: r[a][b] == if Before(a, b, i, j) && InTriple(g, a, b) then Empty else g[a][b]
  }

  /** Visiting cell (i, j) moves the clearing scan one cell on. */
  lemma ClearCell(g: Grid, r: Grid, i: int, j: int)
    requires Square(g) && Square(r) && OnBoard(i, j) && ClearedBefore(g, r, i, j)
    ensures var r' := if InTriple(g, i, j) then r[i := r[i][j := Empty]] else r;
      Square(r') && ClearedBefore(g, r', i, j + 1)
  {
  }

  /** Third loop of `findAndRemoveMatches`: empties the marked cells and counts them. */
  method ClearMarked(g: Grid, marks: seq<seq<bool>>) returns (r: Grid, count: nat)
    requires Square(g) && Square(marks)
    requires forall a, b | OnBoard(a, b) :: marks[a][b] == InTriple(g, a, b)
    ensures r == ClearTriples(g)
    ensures count == TripleCells(g)
  {
    r := g;
    count := 0;
    for i := 0 to Size
      invariant Square(r) && ClearedBefore(g, r, i, 0)
      invariant count == TripleCellsAbove(g, i)
    {
      for j := 0 to Size
        invariant Square(r) && ClearedBefore(g, r, i, j)
        invariant count == TripleCellsAbove(g, i) + RowTripleCells(g, i, j)
      {
        ClearCell(g, r, i, j);
        if marks[i][j] {
          count := count + 1;
          r := r[i := r[i][j := Empty]];
        }
      }
    }
    SquareExt(r, ClearTriples(g));
  }

  /**
   * The game's `findAndRemoveMatches`: reports whether the grid had a
   * triple, returns the grid with every triple cell emptied, and the points
   * it awards, ten per emptied cell.
   */
  method FindAndRemoveMatches(g: Grid) returns (found: bool, r: Grid, points: nat)
    requires Square(g)
    ensures found <==> HasTriple(g)
    ensures r == ClearTriples(g)
    ensures points == PointsPerCell * TripleCells(g)
    ensures found ==> points >= 3 * PointsPerCell
    ensures !found ==> r == g && points == 0
  {
    var rowMarks, inRows := MarkRows(g);
    var marks, inColumns := MarkColumns(g, rowMarks);
    found := inRows || inColumns;
    TripleCellsBounds(g);
    if found {
      var count;
      r, count := ClearMarked(g, marks);
      points := count * PointsPerCell;
    } else {
      ClearWithoutTriples(g);
      r, points := g, 0;
    }
  }
}

=== FILE: runner.dfy ===
/**
 * The runner: obstacles enter at the right edge and move left at the game
 * speed; the runner jumps over them. Every game tick scores a point, every
 * 200 points the speed rises by 0.2 up to 7, and touching an obstacle on the
 * ground ends the game, won at 1000 points. Positions and the speed are exact
 * reals; the runner's height comes from the jump arc, which is not modelled
 * and is an input here.
 */
module Runner {
  import opened GameResult

  datatype Obstacle = Obstacle(x: real, id: nat)

  datatype Session = Session(
    score: int,
    over: bool,
    jumping: bool,
    obstacles: seq<Obstacle>,
    speed: real,
    nextId: nat)

  const StartSpeed: real := 4.0
  const SpeedStep: real := 0.2
  const MaxSpeed: real := 7.0
  const RampEvery: int := 200
  const SpawnX: real := 650.0
  const VanishX: real := -60.0
  const HitFrom: real := 70.0
  const HitTo: real := 120.0
  const Clearance: real := 25.0
  const WinScore: int := 1000

  /** The session as the component mounts it. */
  function Start(): (s: Session)
    ensures Valid(s)
    ensures s.score == 0 && s.speed == StartSpeed && s.obstacles == [] && !s.jumping && !s.over
  {
    Session(0, false, false, [], StartSpeed, 0)
  }

  // ---------------------------------------------------------------------------
  // Obstacles

  /** An obstacle after one tick at the given speed. */
  function Moved(o: Obstacle, speed: real): Obstacle
  {
    o.(x := o.x - speed)
  }

  /** The ids are strictly increasing along the list. */
  predicate IdsIncreasing(obs: seq<Obstacle>)
  {
    forall a, b | 0 <= a < b < |obs| :: obs[a].id < obs[b].id
  }

  /** The `map` of the tick: every obstacle moved left by the speed. */
  function Shift(obs: seq<Obstacle>, speed: real): (r: seq<Obstacle>)
    ensures |r| == |obs|
    ensures forall k | 0 <= k < |obs| :: r[k] == Moved(obs[k], speed)
  {
    seq(|obs|, k requires 0 <= k < |obs| => Moved(obs[k], speed))
  }

  /** The `filter` of the tick: keeps, in their order, the obstacles right of -60. */
  function OnScreen(obs: seq<Obstacle>): seq<Obstacle>
  {
    if obs == [] then []
    else (if obs[0].x > VanishX then [obs[0]] else []) + OnScreen(obs[1..])
  }

  /**
   * The filter keeps exactly the obstacles right of -60, never grows the
   * list, and keeps increasing ids increasing, so the order is kept.
   */
  lemma OnScreenSpec(obs: seq<Obstacle>)
    ensures |OnScreen(obs)| <= |obs|
    ensures forall o | o in OnScreen(obs) :: o in obs && o.x > VanishX
    ensures forall o | o in obs && o.x > VanishX :: o in OnScreen(obs)
    ensures IdsIncreasing(obs) ==> IdsIncreasing(OnScreen(obs))
  {
    OnScreenSound(obs);
    OnScreenComplete(obs);
    if IdsIncreasing(obs) {
      OnScreenOrder(obs);
    }
  }

  lemma {:induction false} OnScreenSound(obs: seq<Obstacle>)
    ensures |OnScreen(obs)| <= |obs|
    ensures forall o | o in OnScreen(obs) :: o in obs && o.x > VanishX
    decreases |obs|
  {
    if obs != [] {
      OnScreenSound(obs[1..]);
      assert forall o | o in obs[1..] :: o in obs;
    }
  }

  lemma {:induction false} OnScreenComplete(obs: seq<Obstacle>)
    ensures forall o | o in obs && o.x > VanishX :: o in OnScreen(obs)
    decreases |obs|
  {
    if obs != [] {
      OnScreenComplete(obs[1..]);
      assert forall o | o in obs && o != obs[0] :: o in obs[1..];
    }
  }

  lemma {:induction false} OnScreenOrder(obs: seq<Obstacle>)
    requires IdsIncreasing(obs)
    ensures IdsIncreasing(OnScreen(obs))
    decreases |obs|
  {
    if obs != [] {
      var rest := OnScreen(obs[1..]);
      OnScreenOrder(obs[1..]);
      OnScreenSound(obs[1..]);
      if obs[0].x > VanishX {
        assert forall o | o in obs[1..] :: obs[0].id < o.id;
        assert forall k | 0 <= k < |rest| :: obs[0].id < rest[k].id by {
          forall k | 0 <= k < |rest| ensures obs[0].id < rest[k].id {
            assert rest[k] in rest;
          }
        }
        assert OnScreen(obs) == [obs[0]] + rest;
      } else {
        assert OnScreen(obs) == rest;
      }
    }
  }

  /**
   * The tick's obstacle update (`map` then `filter`): the survivors are
   * exactly the obstacles moved left by the speed that are still right of
   * -60, in their order; the list never grows.
   */
  function Advance(obs: seq<Obstacle>, speed: real): (r: seq<Obstacle>)
    ensures |r| <= |obs|
    ensures forall o | o in r :: o.x > VanishX && exists m | 0 <= m < |obs| :: o == Moved(obs[m], speed)
    ensures forall m | 0 <= m < |obs| && obs[m].x - speed > VanishX :: Moved(obs[m], speed) in r
    ensures IdsIncreasing(obs) ==> IdsIncreasing(r)
  {
    var shifted := Shift(obs, speed);
    assert IdsIncreasing(obs) ==> IdsIncreasing(shifted);
    assert forall m | 0 <= m < |obs| :: Moved(obs[m], speed) in shifted;
    OnScreenSpec(shifted);
    OnScreen(shifted)
  }

  /** Whether the spawn timer adds an obstacle: only in a running game with no obstacle on screen. */
  function Spawn(s: Session): (t: Session)
    ensures !s.over && s.obstacles == [] ==>
      t == s.(obstacles := [Obstacle(SpawnX, s.nextId)], nextId := s.nextId + 1)
    ensures s.over || s.obstacles != [] ==> t == s
  {
    if !s.over && |s.obstacles| == 0 then
      s.(obstacles := [Obstacle(SpawnX, s.nextId)], nextId := s.nextId + 1)
    else s
  }

  /** The spawn timer's period in milliseconds at the given speed. */
  function SpawnInterval(speed: real): real
  {
    2000.0 - speed * 50.0
  }

  // ---------------------------------------------------------------------------
  // Game tick

  /** The speed ramp: at a positive multiple of 200 points the speed rises by 0.2, capped at 7. */
  function Ramp(score: int, speed: real): real
  {
    if score % RampEvery == 0 && score > 0 then Min(speed + SpeedStep, MaxSpeed) else speed
  }

  /**
   * One game tick: the obstacles advance, the score gains one point, and the
   * speed ramps on the score the tick started from. An ended game does not
   * tick.
   */
  function Tick(s: Session): (t: Session)
    ensures s.over ==> t == s
    ensures !s.over ==> t.score == s.score + 1 && t.obstacles == Advance(s.obstacles, s.speed)
    ensures s.speed <= MaxSpeed ==> s.speed <= t.speed <= MaxSpeed
    ensures t.speed != s.speed ==> !s.over && s.score > 0 && s.score % RampEvery == 0
    ensures !s.over && s.score > 0 && s.score % RampEvery == 0 ==> t.speed == Min(s.speed + SpeedStep, MaxSpeed)
    ensures t.(score := s.score, obstacles := s.obstacles, speed := s.speed) == s
  {
    if s.over then s
    else s.(obstacles := Advance(s.obstacles, s.speed), score := s.score + 1, speed := Ramp(s.score, s.speed))
  }

  // ---------------------------------------------------------------------------
  // Collision and jump

  /** The obstacle is in the runner's band and the runner is below the clearance. */
  predicate Hits(o: Obstacle, playerY: real)
  {
    HitFrom < o.x < HitTo && playerY < Clearance
  }

  /** The game's collision loop: scan the obstacles and stop at the first hit. */
  function AnyHit(obs: seq<Obstacle>, playerY: real): (hit: bool)
    ensures hit <==> exists k | 0 <= k < |obs| :: Hits(obs[k], playerY)
  {
    if obs == [] then false
    else if Hits(obs[0], playerY) then true
    else
      assert forall k | 1 <= k < |obs| :: obs[k] == obs[1..][k - 1];
      AnyHit(obs[1..], playerY)
  }

  /**
   * The collision check at the runner's current height: an ended game is not
   * checked again; otherwise the game ends exactly when some obstacle hits.
   */
  function Collide(s: Session, playerY: real): (t: Session)
    ensures s.over ==> t == s
    ensures !s.over ==> t == s.(over := exists k | 0 <= k < |s.obstacles| :: Hits(s.obstacles[k], playerY))
  {
    if s.over then s
    else if AnyHit(s.obstacles, playerY) then s.(over := true)
    else s
  }

  /** The game's `handleJump`: a jump starts only when not already jumping and the game runs. */
  function Jump(s: Session): (t: Session)
    ensures t != s <==> !s.jumping && !s.over
    ensures t.jumping <==> s.jumping || !s.over
    ensures t.(jumping := s.jumping) == s
  {
    if !s.jumping && !s.over then s.(jumping := true) else s
  }

  /** The end of the jump arc: the runner is back on the ground and nothing else changes. */
  function Land(s: Session): (t: Session)
    ensures !t.jumping
    ensures t.(jumping := s.jumping) == s
  {
    s.(jumping := false)
  }

  /** The terminal result: once over, a win exactly when the score reached 1000. */
  function GameStatus(s: Session): Status
  {
    if s.over then Ended(Verdict(s.score, WinScore)) else Playing
  }

  /**
   * A collision ends a running game, labelled a win exactly when the score
   * reached 1000; without a hit the game goes on, and an ended game keeps
   * its label.
   */
  lemma EndRule(s: Session, playerY: real)
    ensures !s.over && AnyHit(s.obstacles, playerY) ==>
      GameStatus(Collide(s, playerY)) == Ended(if s.score >= WinScore then Win else Lose)
    ensures !s.over && !AnyHit(s.obstacles, playerY) ==> GameStatus(Collide(s, playerY)) == Playing
    ensures s.over ==> GameStatus(Collide(s, playerY)) == GameStatus(s) && GameStatus(Tick(s)) == GameStatus(s)
  {
  }

  // ---------------------------------------------------------------------------
  // The invariant of a session

  /**
   * What every reachable session satisfies: the speed between 4 and 7, at
   * most one obstacle on screen, every obstacle between -60 (exclusive) and
   * 650, and every id already handed out.
   */
  predicate Valid(s: Session)
  {
    && StartSpeed <= s.speed <= MaxSpeed
    && s.score >= 0
    && |s.obstacles| <= 1
    && (forall k | 0 <= k < |s.obstacles| :: VanishX < s.obstacles[k].x <= SpawnX && s.obstacles[k].id < s.nextId)
  }

  /** What can happen to a session; `playerY` is the runner's height from the jump arc. */
  datatype Event = GameTick | SpawnTick | Check(playerY: real) | JumpPressed | JumpOver

  function Step(s: Session, e: Event): Session
  {
    match e
    case GameTick => Tick(s)
    case SpawnTick => Spawn(s)
    case Check(y) => Collide(s, y)
    case JumpPressed => Jump(s)
    case JumpOver => Land(s)
  }

  /**
   * Every event keeps the invariant, so the spawn period stays within
   * [1650, 1800] ms; the score never falls, and once the game is over the
   * score and the obstacles stay as they are.
   */
  lemma StepSpec(s: Session, e: Event)
    requires Valid(s)
    ensures Valid(Step(s, e))
    ensures 1650.0 <= SpawnInterval(Step(s, e).speed) <= 1800.0
    ensures Step(s, e).score >= s.score
    ensures Step(s, e).speed >= s.speed
    ensures s.over ==> Step(s, e).over && Step(s, e).score == s.score && Step(s, e).obstacles == s.obstacles
  {
    if e == GameTick && !s.over {
      var r := Advance(s.obstacles, s.speed);
      forall k | 0 <= k < |r|
        ensures VanishX < r[k].x <= SpawnX && r[k].id < s.nextId
      {
        assert r[k] in r;
        var m :| 0 <= m < |s.obstacles| && r[k] == Moved(s.obstacles[m], s.speed);
      }
    }
  }

  /** The session after n game ticks with no other event in between. */
  function Ticks(s: Session, n: nat): Session
  {
    if n == 0 then s else Tick(Ticks(s, n - 1))
  }

  /** Number of speed rises in the first n ticks: one per positive multiple of 200 below n. */
  function Rises(n: nat): nat
  {
    if n == 0 then 0 else (n - 1) / RampEvery
  }

  /**
   * From the start, n uninterrupted ticks score n points and raise the speed
   * once per 200 points, from 4 up to the cap of 7.
   */
  lemma {:induction false} TicksFromStart(n: nat)
    ensures Ticks(Start(), n).score == n
    ensures !Ticks(Start(), n).over
    ensures Ticks(Start(), n).speed == Min(StartSpeed + SpeedStep * Rises(n) as real, MaxSpeed)
  {
    if n > 0 {
      TicksFromStart(n - 1);
      var s := Ticks(Start(), n - 1);
      if (n - 1) % RampEvery == 0 && n - 1 > 0 {
        assert Rises(n) == Rises(n - 1) + 1;
      } else {
        assert Rises(n) == Rises(n - 1);
      }
    }
  }
}
